=== FILE: README.md ===
# Live conversation session and translation history — a Dafny model

This project models the client-side state logic of a browser app that translates text, labels its sentiment, and holds live voice conversations with a remote generative model. Two views hold all of that logic.

- **The conversation view** keeps a session record: status (`idle`, `connecting`, `active`, `error`), the finalized transcript, the two partial-transcription buffers, the playback cursor `nextStartTime`, the set of live output sources, and the refs to the platform objects. Every server message goes through one handler with four stages, in order: transcription append, turn-complete flush, interruption (barge-in), and audio scheduling. Teardown and the start/stop/open/error/close transitions change the same record.
- **The translator view** keeps a history of translations, newest first, at most fifty, with no two entries sharing input text, translation and target language. It also merges dictated text into the input, picks a default dictation language from the browser's tag, and decides when a settled translation reaches the history.

Every handler is a pure step function on immutable datatypes. Times are non-negative `real`s. Source nodes are abstract ids.

Modules:

- `Wrappers` (wrappers.dfy): `Option`.
- `Text` (text.dfy): ECMAScript `trim` and its whitespace set, an independent characterisation of trimming, and `split('-')[0]`.
- `Conversation` (conversation.dfy): the session record and the handlers.
- `ConversationProperties` (conversation_properties.dfy): properties over several calls. These are the teardown invariant over any event sequence, back-to-back playback, barge-in, and idempotence.
- `History` (history.dfy): `addToHistory`, `deleteHistoryItem`, `clearHistory` and the well-formedness invariant.
- `Dictation` (dictation.dfy): the speech-recognition `onresult` merge.
- `Translator` (translator.dfy): the default input language, the language-name lookup, and the debounced-input gating.

Three behaviours of the code that the model keeps as written:

- `onopen` has no guard against an earlier stop: a late open acknowledgement still makes the view `active` (`ConversationProperties.LateOpenAfterStop`).
- `startSession` has no guard on the current status; only the button's wiring keeps it from running twice, so `Conversation.StartSession` has none either.
- `cleanUp` runs from the stop, error, close and start-failure paths, and the model proves it idempotent (`ConversationProperties.CleanUpIdempotent`).

## Model

| member | source | states |
|---|---|---|
| Text.Trim | components/ConversationView.tsx:97-98 | `trim` never lengthens a string, and its result neither starts nor ends with ECMAScript whitespace |
| Text.TrimIsTrimOf | components/ConversationView.tsx:97-98 | the trim is a slice of the input with only whitespace around it and no whitespace at its ends |
| Text.TrimOfIsUnique | components/TranslatorView.tsx:191-192 | any slice meeting that characterisation is the trim, so the characterisation and `Trim` agree |
| Text.TrimEmptyIffAllSpace | components/TranslatorView.tsx:98 | `s.trim()` is falsy exactly when every character of `s` is whitespace |
| Text.TrimIdempotent | components/TranslatorView.tsx:191-192 | trimming a trimmed string changes nothing |
| Text.TrimOfTrimmed | components/TranslatorView.tsx:191-194 | a string that neither starts nor ends with whitespace is its own trim |
| Text.PrefixBeforeDash | components/TranslatorView.tsx:28 | `split('-')[0]` is the longest dash-free prefix: followed by a `-` or by the end of the tag |
| Conversation.Initial | components/ConversationView.tsx:19-36 | the mounted view is idle, has an empty transcript, and meets the session invariants |
| Conversation.AppendTranscription | components/ConversationView.tsx:88-94 | output transcription text is appended to the output buffer; input text is appended only when there is no output transcription; nothing else changes |
| Conversation.TurnLines | components/ConversationView.tsx:97-105 | a completed turn adds at most two lines: the trimmed input as `You` iff non-empty, then the trimmed output as `Gemini` iff non-empty |
| Conversation.FlushTurn | components/ConversationView.tsx:96-109 | the turn's lines are appended after the unchanged transcript and both buffers end empty |
| Conversation.Interrupt | components/ConversationView.tsx:111-118 | every live source is reported stopped, the live set ends empty and the cursor is reset to 0 |
| Conversation.ScheduleAudio | components/ConversationView.tsx:120-139 | without an output context nothing changes. Otherwise the start is at or after both the clock and the old cursor and equals one of them, the cursor moves to start + duration, and the fresh id joins the live set. A decode failure starts nothing but still raises the cursor |
| Conversation.Prepare | components/ConversationView.tsx:87-118 | the first three stages change only the buffers and the transcript, the transcript only on turn complete; an interruption also stops exactly the live sources, empties the live set and resets the cursor |
| Conversation.HandleMessage | components/ConversationView.tsx:87-140 | status, status line, error text and every resource flag never change; the cursor never moves back without an interruption; an interruption stops exactly the live sources and empties the live set, any other message keeps every live source, and a started chunk joins the live set; a started chunk never starts in the past |
| Conversation.SourceEnded | components/ConversationView.tsx:130-132 | an `ended` event removes that source and keeps every other live source |
| Conversation.CleanUp | components/ConversationView.tsx:44-65 | teardown releases every resource, empties the live set and both buffers, resets the cursor, and leaves the transcript, client, status and messages alone |
| Conversation.StopSession | components/ConversationView.tsx:67-79 | stop tears down (everything released, both buffers empty, transcript and client kept) and ends `idle` with an empty status line and the error kept |
| Conversation.OnOpen | components/ConversationView.tsx:170-187 | the open acknowledgement wires the capture tap and makes the view `active` whatever its status |
| Conversation.OnError | components/ConversationView.tsx:189-194 | a session error sets the fixed connectivity message and `error`, and tears down: everything released, both buffers empty, transcript, client and status line kept |
| Conversation.OnClose | components/ConversationView.tsx:195-198 | a close tears down (everything released, both buffers empty, transcript, client and status line kept) and ends `idle`, keeping an earlier error message |
| Conversation.StartFailed | components/ConversationView.tsx:208-213 | a start failure shows the thrown message, or the generic message when it is empty, sets `error`, and tears down: everything released, both buffers empty, transcript and client kept |
| Conversation.StartSession | components/ConversationView.tsx:142-213 | start clears the transcript. With no client and no key it fails with the API-key message and the "Initializing..." status line. Otherwise the client is kept, and start succeeds exactly when no step throws: `connecting` with every resource held, and the buffers, live set, cursor and tap as they were (start itself never clears stale buffers). A failing step leaves the thrown message, or the generic one when it is empty, and that step's status line. Any failure ends `error` with everything released, both buffers empty and the id counter kept |
| ConversationProperties.HandleMessageKeepsInvariant | components/ConversationView.tsx:87-140 | a message keeps live ids fresh, keeps a context-less session silent, and never gives an idle or failed session a resource |
| ConversationProperties.ApplyKeepsInvariant | components/ConversationView.tsx:142-198 | every event (start, open, message, ended, error, close, stop) keeps the session invariants |
| ConversationProperties.ReplayKeepsInvariant | components/ConversationView.tsx:142-198 | after any sequence of events, an idle or failed view holds nothing and plays nothing |
| ConversationProperties.NoLeakFromInitial | components/ConversationView.tsx:44-65 | from the mounted view, no event sequence leaks a resource into an idle or failed state |
| ConversationProperties.BackToBackCons | components/ConversationView.tsx:133-134 | a chunk ending where a back-to-back run starts extends the run |
| ConversationProperties.QuietStep | components/ConversationView.tsx:124-134 | a message without an interruption never moves the cursor back, and a chunk it starts begins at or after the old cursor and moves the cursor to its end |
| ConversationProperties.NoOverlap | components/ConversationView.tsx:122-135 | with no interruption, every chunk starts at or after the initial cursor and at or after the previous chunk's end, and the final cursor is past every end |
| ConversationProperties.Gapless | components/ConversationView.tsx:124-134 | the next chunk starts no earlier than the previous one ends, and exactly then iff the clock has not passed that point |
| ConversationProperties.InterruptThenSchedule | components/ConversationView.tsx:111-135 | after barge-in all live sources are stopped, and a chunk in the same message starts at the current clock and is the only live source |
| ConversationProperties.InterruptIdempotent | components/ConversationView.tsx:111-118 | interrupting twice equals interrupting once; on a silent session with a reset cursor it changes nothing |
| ConversationProperties.OutputTranscriptionWins | components/ConversationView.tsx:88-94 | a message with both transcriptions grows only the output buffer |
| ConversationProperties.TurnCompleteFlushes | components/ConversationView.tsx:88-109 | on turn complete the message's own text is flushed too: at most two lines added, the old transcript a prefix, both buffers empty |
| ConversationProperties.CleanUpIdempotent | components/ConversationView.tsx:44-65 | tearing down twice equals tearing down once |
| ConversationProperties.StopSessionIdempotent | components/ConversationView.tsx:67-79 | stopping twice equals stopping once |
| ConversationProperties.LateOpenAfterStop | components/ConversationView.tsx:170-187 | an open acknowledgement after a stop still yields `active`, with no session or output context held |
| ConversationProperties.ErrorThenClose | components/ConversationView.tsx:189-198 | error then close ends `idle`, keeps the connectivity message, and holds nothing |
| ConversationProperties.StartThenOpen | components/ConversationView.tsx:142-187 | with a key and no failing step, the view goes idle, then connecting, then active, holding session, output context and tap |
| History.Stamp | components/TranslatorView.tsx:84-88 | a stamped item carries the draft's key, sentiment and language name, and the given id and timestamp |
| History.Add | components/TranslatorView.tsx:82-95 | a draft whose key is present leaves the history unchanged. Otherwise the new item is first, the old entries follow in order, and the length is min(old + 1, 50). The key is present afterwards, and uniqueness and the cap are kept |
| History.AddTwice | components/TranslatorView.tsx:90-92 | adding the same translation twice equals adding it once, whatever the second id and timestamp |
| History.Delete | components/TranslatorView.tsx:292-294 | deletion removes every copy of the entries with that id and no other entry |
| History.DeleteMembers | components/TranslatorView.tsx:292-294 | an entry survives deletion iff it was present and has another id |
| History.DeleteKeepsOrder | components/TranslatorView.tsx:292-294 | the survivors are a subsequence of the old history: their order is kept |
| History.DeleteKeepsKeysUnique | components/TranslatorView.tsx:292-294 | deletion keeps keys unique |
| History.DeleteShrinks | components/TranslatorView.tsx:292-294 | deletion never lengthens the history |
| History.Clear | components/TranslatorView.tsx:296-298 | clearing yields the empty history |
| History.ReplayKeepsWellFormed | components/TranslatorView.tsx:90-93 | any sequence of adds, deletes and clears keeps at most 50 entries and unique keys |
| Dictation.FinalsSnoc | components/TranslatorView.tsx:184-188 | one more result adds its transcript at the end when final, and nothing otherwise |
| Dictation.FinalsEmpty | components/TranslatorView.tsx:183-189 | the final text is empty iff every final result has an empty transcript |
| Dictation.Merge | components/TranslatorView.tsx:189-195 | an empty final text leaves the input alone. Otherwise the result is the trimmed old text, then one space if that is non-empty, then the trimmed final text |
| Dictation.OnResult | components/TranslatorView.tsx:182-196 | the handler's loop collects the final transcripts from `resultIndex` on (none past the end) and merges them into the input |
| Dictation.MergeIsTrimmed | components/TranslatorView.tsx:190-194 | when the final text has a non-space character, the merged input is its own trim |
| Dictation.WhitespaceFinalText | components/TranslatorView.tsx:189-194 | a whitespace-only final text trims the old input and, when it is non-empty, appends a single space |
| Translator.DefaultInputLanguage | components/TranslatorView.tsx:26-32 | the default is the browser tag's prefix before `-` when the list has that code, else `en`; with no or an empty browser language it is `en` |
| Translator.LanguageName | components/TranslatorView.tsx:150 | the name of the first language with the code, or empty when none has it |
| Translator.OnDebouncedInput | components/TranslatorView.tsx:97-158 | whitespace-only input clears the translation, sentiment and error and keeps the history. A failed translation sets the error and adds nothing. Only a non-empty translation with a sentiment changes the history, and then by adding exactly that draft |
| Translator.OnDebouncedInputKeepsHistory | components/TranslatorView.tsx:147-158 | a settled request keeps the history well formed |

## Left out

- The PCM codec (`decode`, `decodeAudioData`, `createBlob`) is in `utils/audio`, which is not part of this model. Decoding is an outcome: a duration, or `None` when it throws. An absent or empty base64 payload is a message without audio.
- Web Audio and device plumbing is reduced to flags and abstract ids. This covers `getUserMedia`, the two `AudioContext`s, the 4096-sample script-processor tap, `sendRealtimeInput`, and `source.start`/`stop`. The `minted` counter stands in for the fresh identity of a new source node. Teardown does not reset it.
- Asynchrony: each handler is one atomic step. The model does not cover a stop that lands during the `await decodeAudioData` between lines 124 and 133; in the code such a chunk is still started and added after teardown. Nor does it cover an interruption that lands there: the interruption resets the cursor to 0 (line 117), so the pending chunk starts immediately after the barge-in (line 133). It also does not cover the await of the session promise in `stopSession`, or stale translation results that settle after the input has changed.
- The start sequence does not await `live.connect`, so a rejection of the connect promise escapes its `try` block. The model's `Connect` failure is a synchronous throw from the call; a later rejection is not modelled.
- `session.close()` in `stopSession` and the `close()` of the audio contexts are side effects with no state here. So is the logging of their failures.
- The service calls `translateText` and `analyzeSentiment` are outcome parameters (`Option`, `None` for a rejection). The language list `LANGUAGES` lives in a constants file that is not part of this model, so it is a parameter.
- A transcription whose `text` field is undefined, which JavaScript would append as the string "undefined", is not modelled: transcription text is always a string.
- Only the first part of `modelTurn.parts` is looked at, as in the code. Other parts are not modelled.
- `localStorage` loading and saving, the 800 ms debounce timer, and speech synthesis are left out. So are the recognition lifecycle callbacks (`onstart`, `onerror`, `onend`, toggling, language changes), `loadFromHistory`, `handleClearInput`, the loading flags, and all rendering. These are browser surfaces and UI state with no logic the model's properties depend on.
- Strings are sequences of Unicode scalar values, while JavaScript strings are UTF-16 code units. A lone surrogate cannot be represented, and lengths count scalar values, not code units.
- Floating-point clock arithmetic: times and durations are exact reals.
- History.ReplayKeepsWellFormed: it assumes the starting history is well formed. A history loaded from storage is not checked by the code.

=== FILE: conversation.dfy ===
/** The live-conversation view's session state and the handlers that change it: the
    server-message handler (transcription buffers, turn flush, barge-in, playback
    scheduling), the teardown routine, and the start/stop/open/error/close transitions.
    Each handler is a total step function on an immutable `Session`; the audio devices,
    the network session and the PCM codec are reduced to the flags and outcomes the
    handlers test. */
module Conversation {
  import opened Wrappers
  import Text

  datatype Status = Idle | Connecting | Active | Error

  datatype Speaker = You | Gemini

  /** One finalized line of the displayed transcript. */
  datatype Entry = Entry(speaker: Speaker, text: string)

  /** A time or a duration on the output audio context's clock, in seconds. */
  type Time = r: real | 0.0 <= r witness 0.0

  /** Identity of an output buffer source node. */
  type SourceId = nat

  /** Everything the view keeps between events. The `has…` flags stand for the refs that
      hold platform objects: the client, the pending live session, the microphone
      stream, the capture tap (media-stream source and script processor), and the two
      audio contexts. `minted` counts the source nodes created so far, so that a new
      node's id is fresh, as a new object's identity is. */
  datatype Session = Session(
    status: Status,
    connectionStatus: string,
    error: string,
    transcript: seq<Entry>,
    inputBuffer: string,
    outputBuffer: string,
    nextStartTime: Time,
    sources: set<SourceId>,
    minted: nat,
    hasClient: bool,
    hasSession: bool,
    hasMic: bool,
    hasTap: bool,
    hasInputContext: bool,
    hasOutputContext: bool)

  /** An audio payload of a server message, as far as the scheduler sees it: the output
      clock when it is handled, and the decoded buffer's duration, or `None` when
      decoding threw. An absent or empty base64 payload is no `Audio` at all. */
  datatype Audio = Audio(now: Time, decoded: Option<Time>)

  /** The fields of a live server message the handler reads. */
  datatype Message = Message(
    outputTranscription: Option<string>,
    inputTranscription: Option<string>,
    turnComplete: bool,
    interrupted: bool,
    audio: Option<Audio>)

  /** A source node started at `start` that plays for `duration`. */
  datatype Playback = Playback(id: SourceId, start: Time, duration: Time)

  /** The outcome of handling one message: the new state, the sources it stopped, and the
      source it started, if any. */
  datatype Step = Step(next: Session, stopped: set<SourceId>, started: Option<Playback>)

  const InitializingStatus := "Initializing..."
  const MicrophoneStatus := "Requesting microphone access..."
  const AudioSetupStatus := "Setting up audio streams..."
  const ConnectingStatus := "Connecting to Gemini Live..."
  const MissingKeyMessage := "API_KEY environment variable not set"
  const StartFailedMessage := "Could not start session. Check permissions and try again."
  const ConnectionFailedMessage := "Connection failed. Please check your network or API key."

  /** Ids handed out so far are below `minted`, and with no output context there is
      nothing playing and nothing scheduled. */
  predicate Valid(s: Session) {
    && (forall id | id in s.sources :: id < s.minted)
    && (!s.hasOutputContext ==> s.sources == {} && s.nextStartTime == 0.0)
  }

  /** No platform resource is held, nothing plays, and the cursor is at 0. */
  predicate Released(s: Session) {
    && !s.hasSession && !s.hasMic && !s.hasTap
    && !s.hasInputContext && !s.hasOutputContext
    && s.sources == {} && s.nextStartTime == 0.0
  }

  /** A session that is idle or failed holds nothing. */
  predicate Settled(s: Session) {
    (s.status == Idle || s.status == Error) ==> Released(s)
  }

  /** `a` and `b` agree on status, status line, error text and every held resource: all
      that a server message never touches. */
  predicate SameSetup(a: Session, b: Session) {
    && a.status == b.status && a.connectionStatus == b.connectionStatus && a.error == b.error
    && a.hasClient == b.hasClient && a.hasSession == b.hasSession && a.hasMic == b.hasMic
    && a.hasTap == b.hasTap && a.hasInputContext == b.hasInputContext
    && a.hasOutputContext == b.hasOutputContext
  }

  /** The state when the view mounts. */
  function Initial(): (s: Session)
    ensures s.status == Idle && s.transcript == []
    ensures Valid(s) && Settled(s)
  {
    Session(Idle, "", "", [], "", "", 0.0, {}, 0, false, false, false, false, false, false)
  }

  function Max(a: Time, b: Time): (r: Time)
    ensures r >= a && r >= b && (r == a || r == b)
  {
    if a >= b then a else b
  }

  // ---------------------------------------------------------------------------
  // The four stages of the message handler, in source order

  /** Stage 1: output transcription text is appended to the output buffer; only a
      message without one has its input transcription appended to the input buffer. */
  function AppendTranscription(s: Session, m: Message): (r: Session)
    ensures SameSetup(s, r)
    ensures m.outputTranscription.Some? ==>
      && r.outputBuffer == s.outputBuffer + m.outputTranscription.value
      && r.inputBuffer == s.inputBuffer
    ensures m.outputTranscription.None? && m.inputTranscription.Some? ==>
      && r.inputBuffer == s.inputBuffer + m.inputTranscription.value
      && r.outputBuffer == s.outputBuffer
    ensures m.outputTranscription.None? && m.inputTranscription.None? ==> r == s
    ensures r == s.(inputBuffer := r.inputBuffer, outputBuffer := r.outputBuffer)
    ensures Valid(s) ==> Valid(r)
  {
    match (m.outputTranscription, m.inputTranscription)
    case (Some(text), _) => s.(outputBuffer := s.outputBuffer + text)
    case (None, Some(text)) => s.(inputBuffer := s.inputBuffer + text)
    case (None, None) => s
  }

  /** The line a buffer contributes at turn end: its trimmed text under `speaker`, or
      nothing when the trimmed text is empty. */
  function Line(speaker: Speaker, buffer: string): (r: seq<Entry>)
    ensures |r| <= 1
    ensures r != [] <==> Text.Trim(buffer) != []
    ensures forall e | e in r :: e.speaker == speaker && e.text == Text.Trim(buffer)
  {
    var text := Text.Trim(buffer);
    if text != [] then [Entry(speaker, text)] else []
  }

  /** The lines a completed turn adds: the trimmed input as a `You` line and the trimmed
      output as a `Gemini` line, each only when non-empty, `You` first. */
  function TurnLines(input: string, output: string): (r: seq<Entry>)
    ensures |r| <= 2
    ensures forall e | e in r :: e.text != []
    ensures forall e | e in r :: e.speaker == You ==> e.text == Text.Trim(input)
    ensures forall e | e in r :: e.speaker == Gemini ==> e.text == Text.Trim(output)
    ensures Text.Trim(input) != [] <==> Entry(You, Text.Trim(input)) in r
    ensures Text.Trim(output) != [] <==> Entry(Gemini, Text.Trim(output)) in r
    ensures |r| == 2 ==> r[0].speaker == You && r[1].speaker == Gemini
  {
    var mine := Line(You, input);
    var theirs := Line(Gemini, output);
    if mine == [] then theirs
    else if theirs == [] then mine
    else [mine[0], theirs[0]]
  }

  /** Stage 2, on turn complete: the turn's lines are appended after the unchanged
      earlier lines, and both buffers are emptied even if only one had text. */
  function FlushTurn(s: Session): (r: Session)
    ensures SameSetup(s, r)
    ensures r.transcript == s.transcript + TurnLines(s.inputBuffer, s.outputBuffer)
    ensures r.inputBuffer == [] && r.outputBuffer == []
    ensures r == s.(transcript := r.transcript, inputBuffer := [], outputBuffer := [])
    ensures Valid(s) ==> Valid(r)
  {
    s.(transcript := s.transcript + TurnLines(s.inputBuffer, s.outputBuffer), inputBuffer := [], outputBuffer := [])
  }

  /** Stage 3, on interruption: every live source is stopped, the live set ends empty and
      the cursor goes back to 0. */
  function Interrupt(s: Session): (r: Step)
    ensures SameSetup(s, r.next)
    ensures r.stopped == s.sources
    ensures r.next.sources == {} && r.next.nextStartTime == 0.0
    ensures r.started.None?
    ensures r.next == s.(sources := {}, nextStartTime := 0.0)
    ensures Valid(s) ==> Valid(r.next)
  {
    Step(s.(sources := {}, nextStartTime := 0.0), s.sources, None)
  }

  /** Stage 4, an audio payload: with no output context it is dropped. Otherwise the
      cursor is first raised to the current clock; a chunk that decodes then starts at
      the cursor, never in the past and never before earlier chunks end, and the cursor
      moves to its end. A chunk that fails to decode adds nothing, but the cursor has
      already been raised. */
  function ScheduleAudio(s: Session, a: Audio): (r: Step)
    ensures r.started.None? ==> r.next.sources == s.sources
    ensures SameSetup(s, r.next)
    ensures r.stopped == {}
    ensures !s.hasOutputContext ==> r.next == s && r.started.None?
    ensures s.hasOutputContext ==>
      r.next == s.(nextStartTime := r.next.nextStartTime, sources := r.next.sources, minted := r.next.minted)
    ensures s.hasOutputContext && a.decoded.None? ==>
      && r.started.None?
      && r.next.sources == s.sources
      && r.next.nextStartTime >= s.nextStartTime && r.next.nextStartTime >= a.now
      && (r.next.nextStartTime == s.nextStartTime || r.next.nextStartTime == a.now)
    ensures s.hasOutputContext && a.decoded.Some? ==> r.started.Some?
    ensures r.started.Some? ==>
      && var p := r.started.value;
      && p.start >= s.nextStartTime && p.start >= a.now
      && (p.start == s.nextStartTime || p.start == a.now)
      && a.decoded == Some(p.duration)
      && r.next.nextStartTime == p.start + p.duration
      && p.id == s.minted && r.next.minted == s.minted + 1
      && r.next.sources == s.sources + {p.id}
  {
    if !s.hasOutputContext then
      Step(s, {}, None)
    else
      var start := Max(s.nextStartTime, a.now);
      match a.decoded
      case None => Step(s.(nextStartTime := start), {}, None)
      case Some(duration) =>
        var id := s.minted;
        Step(s.(nextStartTime := start + duration, sources := s.sources + {id}, minted := s.minted + 1),
             {}, Some(Playback(id, start, duration)))
  }

  /** Stages 1 to 3 of the handler, before any audio is looked at. Only the buffers and
      the transcript change, unless the message is an interruption, which also empties
      the live set and resets the cursor. */
  function Prepare(s: Session, m: Message): (r: Step)
    ensures SameSetup(s, r.next) && r.next.minted == s.minted && r.started.None?
    ensures !m.interrupted ==>
      && r.stopped == {} && r.next.sources == s.sources && r.next.nextStartTime == s.nextStartTime
    ensures m.interrupted ==>
      && r.stopped == s.sources && r.next.sources == {} && r.next.nextStartTime == 0.0
    ensures !m.turnComplete ==> r.next.transcript == s.transcript
  {
    var s1 := AppendTranscription(s, m);
    var s2 := if m.turnComplete then FlushTurn(s1) else s1;
    if m.interrupted then Interrupt(s2) else Step(s2, {}, None)
  }

  /** The whole message handler: the four stages applied in source order. Status, error
      text and resource flags never change, and the cursor only moves backwards when the
      message is an interruption. */
  function HandleMessage(s: Session, m: Message): (r: Step)
    ensures SameSetup(s, r.next)
    ensures !m.interrupted ==> r.stopped == {} && r.next.nextStartTime >= s.nextStartTime
    ensures m.interrupted ==> r.stopped == s.sources
    ensures r.started.None? ==> r.next.sources == (if m.interrupted then {} else s.sources)
    ensures r.started.Some? ==> r.next.sources == (if m.interrupted then {} else s.sources) + {r.started.value.id}
    ensures !m.turnComplete ==> r.next.transcript == s.transcript
    ensures r.started.Some? ==>
      && var p := r.started.value;
      && m.audio.Some? && p.start >= m.audio.value.now
      && (m.interrupted || p.start >= s.nextStartTime)
      && (m.interrupted || p.start == s.nextStartTime || p.start == m.audio.value.now)
      && r.next.nextStartTime == p.start + p.duration
      && p.id == s.minted && p.id in r.next.sources
  {
    var st3 := Prepare(s, m);
    match m.audio
    case None => st3
    case Some(a) =>
      var st4 := ScheduleAudio(st3.next, a);
      Step(st4.next, st3.stopped, st4.started)
  }

  /** A source's `ended` event removes that source, and only it, from the live set. */
  function SourceEnded(s: Session, id: SourceId): (r: Session)
    ensures id !in r.sources
    ensures forall other | other in s.sources && other != id :: other in r.sources
    ensures r.sources <= s.sources
    ensures r == s.(sources := r.sources)
    ensures Valid(s) ==> Valid(r)
    ensures Settled(s) ==> Settled(r)
  {
    s.(sources := s.sources - {id})
  }

  // ---------------------------------------------------------------------------
  // Teardown and status transitions

  /** `r` is `s` after teardown: nothing held, nothing playing, cursor at 0, both
      transcription buffers empty; the transcript, the client and the id counter kept. */
  predicate TornDown(s: Session, r: Session) {
    && Released(r)
    && r.inputBuffer == [] && r.outputBuffer == []
    && r.transcript == s.transcript
    && r.hasClient == s.hasClient && r.minted == s.minted
  }

  /** Teardown: stops every live source, releases the microphone, the capture tap, both
      audio contexts and the session, empties both transcription buffers and resets the
      cursor. The transcript, the status and the messages are left alone. */
  function CleanUp(s: Session): (r: Session)
    ensures TornDown(s, r)
    ensures r.status == s.status && r.error == s.error && r.connectionStatus == s.connectionStatus
    ensures r.hasClient == s.hasClient && r.minted == s.minted
    ensures Valid(r)
  {
    s.(sources := {}, hasSession := false, hasInputContext := false, hasOutputContext := false,
       hasMic := false, hasTap := false, inputBuffer := [], outputBuffer := [], nextStartTime := 0.0)
  }

  /** Explicit stop: teardown, then `idle` with an empty status line. Closing the remote
      session is a side effect with no state of its own here. */
  function StopSession(s: Session): (r: Session)
    ensures r.status == Idle && r.connectionStatus == []
    ensures TornDown(s, r) && Valid(r) && Settled(r)
    ensures r.error == s.error
  {
    CleanUp(s).(status := Idle, connectionStatus := [])
  }

  /** The remote acknowledged the session: the capture tap is wired and the view goes
      `active`, whatever the status was. */
  function OnOpen(s: Session): (r: Session)
    ensures r.status == Active && r.connectionStatus == [] && r.hasTap
    ensures r == s.(status := Active, connectionStatus := [], hasTap := true)
    ensures Valid(s) ==> Valid(r)
  {
    s.(status := Active, connectionStatus := [], hasTap := true)
  }

  /** The live session reported an error: a fixed connectivity message, `error`, teardown. */
  function OnError(s: Session): (r: Session)
    ensures r.status == Error && r.error == ConnectionFailedMessage
    ensures TornDown(s, r) && Valid(r) && Settled(r)
    ensures r.connectionStatus == s.connectionStatus
  {
    CleanUp(s.(error := ConnectionFailedMessage, status := Error))
  }

  /** The live session closed: teardown and `idle`; an earlier error message stays. */
  function OnClose(s: Session): (r: Session)
    ensures r.status == Idle && r.error == s.error
    ensures TornDown(s, r) && Valid(r) && Settled(r)
    ensures r.connectionStatus == s.connectionStatus
  {
    CleanUp(s).(status := Idle)
  }

  /** The step of the start sequence that threw. */
  datatype Stage = Microphone | AudioSetup | Connect

  /** What the environment does during a start request: the configured API key (empty
      when unset) and, if a step throws, which one and the error's message. */
  datatype StartEnv = StartEnv(apiKey: string, failure: Option<(Stage, string)>)

  /** The status line shown while `stage` runs. */
  function StageStatus(stage: Stage): string {
    match stage
    case Microphone => MicrophoneStatus
    case AudioSetup => AudioSetupStatus
    case Connect => ConnectingStatus
  }

  /** The catch block of the start sequence: the thrown message, or a generic one when
      it is empty, then `error` and teardown. */
  function StartFailed(s: Session, message: string): (r: Session)
    ensures r.status == Error && r.error != []
    ensures message != [] ==> r.error == message
    ensures message == [] ==> r.error == StartFailedMessage
    ensures TornDown(s, r) && Valid(r)
    ensures r.connectionStatus == s.connectionStatus
  {
    CleanUp(s.(error := if message != [] then message else StartFailedMessage, status := Error))
  }

  /** A start request: `connecting` with an empty transcript and no error, then client
      creation (which fails without an API key unless a client already exists),
      microphone access, the two audio contexts and the connect call. Any failure ends
      in `error` with teardown; success leaves the view `connecting` with every resource
      held, waiting for the open acknowledgement. */
  function StartSession(s: Session, env: StartEnv): (r: Session)
    ensures r.transcript == []
    ensures r.status == Connecting || r.status == Error
    ensures r.status == Connecting ==>
      && r.error == [] && r.connectionStatus == ConnectingStatus
      && r.hasClient && r.hasSession && r.hasMic && r.hasInputContext && r.hasOutputContext
    ensures r.status == Error ==> r.error != [] && Released(r)
    ensures !s.hasClient && env.apiKey == [] ==> r.status == Error && r.error == MissingKeyMessage
    ensures (s.hasClient || env.apiKey != []) ==> (r.status == Connecting <==> env.failure.None?)
    ensures r.status == Error ==> r.inputBuffer == [] && r.outputBuffer == [] && r.minted == s.minted
    ensures (s.hasClient || env.apiKey != []) ==> r.hasClient
    ensures !s.hasClient && env.apiKey == [] ==> r.connectionStatus == InitializingStatus
    ensures (s.hasClient || env.apiKey != []) && env.failure.Some? ==>
      && r.error == (if env.failure.value.1 != [] then env.failure.value.1 else StartFailedMessage)
      && r.connectionStatus == StageStatus(env.failure.value.0)
    ensures r.status == Connecting ==>
      && r.inputBuffer == s.inputBuffer && r.outputBuffer == s.outputBuffer
      && r.sources == s.sources && r.nextStartTime == s.nextStartTime
      && r.hasTap == s.hasTap && r.minted == s.minted
    ensures Valid(s) ==> Valid(r)
    ensures Settled(r)
  {
    var starting := s.(status := Connecting, connectionStatus := InitializingStatus, error := [], transcript := []);
    if !s.hasClient && env.apiKey == [] then
      StartFailed(starting, MissingKeyMessage)
    else
      var withClient := starting.(hasClient := true);
      match env.failure
      case Some((stage, message)) =>
        StartFailed(withClient.(connectionStatus := StageStatus(stage)), message)
      case None =>
        withClient.(hasMic := true, hasInputContext := true, hasOutputContext := true,
                    hasSession := true, connectionStatus := ConnectingStatus)
  }
}

=== FILE: conversation_properties.dfy ===
/** Properties of the live-conversation session that relate several handler calls:
    the teardown invariant over any sequence of events, back-to-back playback without
    overlap, barge-in, and the idempotence of teardown and interruption. */
module ConversationProperties {
  import opened Wrappers
  import opened Conversation

  /** Everything that can happen to the view: the user's start and stop, and the live
      session's callbacks, including a source node's `ended` event. */
  datatype Event =
    | Start(env: StartEnv)
    | Opened
    | Received(message: Message)
    | Ended(id: SourceId)
    | Failed
    | Closed
    | Stopped

  function Apply(s: Session, e: Event): Session {
    match e
    case Start(env) => StartSession(s, env)
    case Opened => OnOpen(s)
    case Received(m) => HandleMessage(s, m).next
    case Ended(id) => SourceEnded(s, id)
    case Failed => OnError(s)
    case Closed => OnClose(s)
    case Stopped => StopSession(s)
  }

  function Replay(s: Session, events: seq<Event>): Session
    decreases |events|
  {
    if events == [] then s else Replay(Apply(s, events[0]), events[1..])
  }

  // ---------------------------------------------------------------------------
  // The teardown invariant

  lemma ScheduleAudioKeepsValid(s: Session, a: Audio)
    requires Valid(s)
    ensures Valid(ScheduleAudio(s, a).next)
  {
  }

  /** Handling a message keeps source ids fresh and keeps a session without an output
      context silent, and it never makes an idle or failed session hold anything. */
  lemma HandleMessageKeepsInvariant(s: Session, m: Message)
    requires Valid(s) && Settled(s)
    ensures Valid(HandleMessage(s, m).next) && Settled(HandleMessage(s, m).next)
  {
    var st3 := Prepare(s, m);
    if m.audio.Some? {
      ScheduleAudioKeepsValid(st3.next, m.audio.value);
    }
  }

  lemma ApplyKeepsInvariant(s: Session, e: Event)
    requires Valid(s) && Settled(s)
    ensures Valid(Apply(s, e)) && Settled(Apply(s, e))
  {
    if e.Received? {
      HandleMessageKeepsInvariant(s, e.message);
    }
  }

  /** Whatever happens, in whatever order, a view that is idle or failed holds no
      session, microphone, capture tap or audio context, plays nothing and has its
      cursor at 0; and the ids of live sources were all handed out earlier. */
  lemma {:induction false} ReplayKeepsInvariant(s: Session, events: seq<Event>)
    requires Valid(s) && Settled(s)
    ensures Valid(Replay(s, events)) && Settled(Replay(s, events))
    decreases |events|
  {
    if events != [] {
      ApplyKeepsInvariant(s, events[0]);
      ReplayKeepsInvariant(Apply(s, events[0]), events[1..]);
    }
  }

  /** From a freshly mounted view, no sequence of events leaks a resource into an idle
      or failed state. */
  lemma NoLeakFromInitial(events: seq<Event>)
    ensures Settled(Replay(Initial(), events))
  {
    ReplayKeepsInvariant(Initial(), events);
  }

  // ---------------------------------------------------------------------------
  // Playback scheduling

  /** Delivers messages one after the other, collecting the sources they start. */
  function Deliver(s: Session, messages: seq<Message>): (r: (Session, seq<Playback>))
    decreases |messages|
  {
    if messages == [] then (s, [])
    else
      var step := HandleMessage(s, messages[0]);
      var rest := Deliver(step.next, messages[1..]);
      (rest.0, (if step.started.Some? then [step.started.value] else []) + rest.1)
  }

  /** Every chunk of `ps` lies within `[from, to]` and none starts before the previous
      one ends. */
  predicate BackToBack(ps: seq<Playback>, from: real, to: real) {
    && (forall i | 0 <= i < |ps| :: from <= ps[i].start && ps[i].start + ps[i].duration <= to)
    && (forall i | 0 <= i < |ps| - 1 :: ps[i].start + ps[i].duration <= ps[i + 1].start)
  }

  /** A chunk that ends where a back-to-back run begins extends the run. */
  lemma BackToBackCons(p: Playback, ps: seq<Playback>, from: real, mid: real, to: real)
    requires from <= p.start && p.start + p.duration == mid
    requires BackToBack(ps, mid, to) && mid <= to
    ensures BackToBack([p] + ps, from, to)
  {
    var qs := [p] + ps;
    forall i | 0 <= i < |qs| - 1
      ensures qs[i].start + qs[i].duration <= qs[i + 1].start
    {
      assert qs[i + 1] == ps[i];
      if i > 0 { assert qs[i] == ps[i - 1]; }
    }
    forall i | 0 <= i < |qs|
      ensures from <= qs[i].start && qs[i].start + qs[i].duration <= to
    {
      if i > 0 { assert qs[i] == ps[i - 1]; }
    }
  }

  /** One message without an interruption: the cursor never moves back, and a chunk it
      starts begins at or after the old cursor and moves the cursor to its end. */
  lemma QuietStep(s: Session, m: Message)
    requires !m.interrupted
    ensures s.nextStartTime <= HandleMessage(s, m).next.nextStartTime
    ensures HandleMessage(s, m).started.Some? ==>
      && s.nextStartTime <= HandleMessage(s, m).started.value.start
      && HandleMessage(s, m).started.value.start + HandleMessage(s, m).started.value.duration
         == HandleMessage(s, m).next.nextStartTime
  {
  }

  /** Without an interruption, chunks play back to back: none starts before the cursor
      the run began with, none starts before the previous one ends, and the cursor ends
      up at or after the end of every chunk. */
  lemma {:induction false} NoOverlap(s: Session, messages: seq<Message>)
    requires forall i | 0 <= i < |messages| :: !messages[i].interrupted
    ensures s.nextStartTime <= Deliver(s, messages).0.nextStartTime
    ensures BackToBack(Deliver(s, messages).1, s.nextStartTime, Deliver(s, messages).0.nextStartTime)
    decreases |messages|
  {
    if messages != [] {
      var step := HandleMessage(s, messages[0]);
      var rest := Deliver(step.next, messages[1..]);
      NoOverlap(step.next, messages[1..]);
      QuietStep(s, messages[0]);
      if step.started.Some? {
        BackToBackCons(step.started.value, rest.1, s.nextStartTime, step.next.nextStartTime, rest.0.nextStartTime);
      } else {
        assert [] + rest.1 == rest.1;
      }
    }
  }

  /** Two consecutive chunks with no interruption in between: the second never starts
      before the first ends, and it starts exactly when the first ends unless the clock
      had already passed that point. */
  lemma Gapless(s: Session, m1: Message, m2: Message)
    requires !m2.interrupted
    requires HandleMessage(s, m1).started.Some?
    requires HandleMessage(HandleMessage(s, m1).next, m2).started.Some?
    ensures var p1 := HandleMessage(s, m1).started.value;
      var p2 := HandleMessage(HandleMessage(s, m1).next, m2).started.value;
      && p1.start + p1.duration <= p2.start
      && (p2.start == p1.start + p1.duration <==> m2.audio.value.now <= p1.start + p1.duration)
  {
  }

  /** Barge-in: after an interruption every live source was stopped and nothing is
      left playing; a chunk in the same message then starts at the current clock, not
      at the stale cursor. */
  lemma InterruptThenSchedule(s: Session, m: Message)
    requires m.interrupted
    ensures HandleMessage(s, m).stopped == s.sources
    ensures m.audio.None? ==> HandleMessage(s, m).next.sources == {} && HandleMessage(s, m).next.nextStartTime == 0.0
    ensures HandleMessage(s, m).started.Some? ==>
      && HandleMessage(s, m).started.value.start == m.audio.value.now
      && HandleMessage(s, m).next.sources == {HandleMessage(s, m).started.value.id}
  {
  }

  /** Interrupting twice is interrupting once, and interrupting a silent session with a
      reset cursor changes nothing. */
  lemma InterruptIdempotent(s: Session)
    ensures Interrupt(Interrupt(s).next).next == Interrupt(s).next
    ensures Interrupt(Interrupt(s).next).stopped == {}
    ensures s.sources == {} && s.nextStartTime == 0.0 ==> Interrupt(s).next == s
  {
  }

  /** A message with both transcriptions grows only the output buffer. */
  lemma OutputTranscriptionWins(s: Session, m: Message)
    requires m.outputTranscription.Some? && m.inputTranscription.Some? && !m.turnComplete
    ensures HandleMessage(s, m).next.outputBuffer == s.outputBuffer + m.outputTranscription.value
    ensures HandleMessage(s, m).next.inputBuffer == s.inputBuffer
  {
  }

  /** On turn complete the text of the same message is flushed with the rest: the
      transcript gains at most a `You` line and then a `Gemini` line, the earlier lines
      stay a prefix, and both buffers end empty. */
  lemma TurnCompleteFlushes(s: Session, m: Message)
    requires m.turnComplete
    ensures var r := HandleMessage(s, m).next;
      var s1 := AppendTranscription(s, m);
      && r.transcript == s.transcript + TurnLines(s1.inputBuffer, s1.outputBuffer)
      && |s.transcript| <= |r.transcript| <= |s.transcript| + 2
      && r.transcript[..|s.transcript|] == s.transcript
      && r.inputBuffer == [] && r.outputBuffer == []
  {
    var s1 := AppendTranscription(s, m);
    var s2 := FlushTurn(s1);
    var st3 := if m.interrupted then Interrupt(s2) else Step(s2, {}, None);
    assert st3.next.transcript == s2.transcript;
    assert st3.next.inputBuffer == [] && st3.next.outputBuffer == [];
    var lines := TurnLines(s1.inputBuffer, s1.outputBuffer);
    assert (s.transcript + lines)[..|s.transcript|] == s.transcript;
  }

  // ---------------------------------------------------------------------------
  // Teardown and status transitions

  lemma CleanUpIdempotent(s: Session)
    ensures CleanUp(CleanUp(s)) == CleanUp(s)
  {
  }

  lemma StopSessionIdempotent(s: Session)
    ensures StopSession(StopSession(s)) == StopSession(s)
  {
  }

  /** The open callback is not guarded: an acknowledgement that arrives after a stop
      still makes the view `active`, though it holds no session or audio context. */
  lemma LateOpenAfterStop(s: Session)
    ensures OnOpen(StopSession(s)).status == Active
    ensures !OnOpen(StopSession(s)).hasSession && !OnOpen(StopSession(s)).hasOutputContext
  {
  }

  /** An error followed by the session's close ends `idle` and keeps the error text. */
  lemma ErrorThenClose(s: Session)
    ensures OnClose(OnError(s)).status == Idle
    ensures OnClose(OnError(s)).error == ConnectionFailedMessage
    ensures Released(OnClose(OnError(s)))
  {
  }

  /** The normal start: with an API key and no failing step the view goes
      `idle` -> `connecting` -> `active`, with every resource held. */
  lemma StartThenOpen(key: string)
    requires key != []
    ensures var s := Apply(Initial(), Start(StartEnv(key, None)));
      && s.status == Connecting
      && Apply(s, Opened).status == Active
      && Apply(s, Opened).hasSession && Apply(s, Opened).hasOutputContext && Apply(s, Opened).hasTap
  {
  }
}

=== FILE: dictation.dfy ===
/** The speech-recognition result handler of the translator: it collects the text of
    the final results of a recognition event and appends it to the input text. */
module Dictation {
  import Text

  /** One entry of a recognition event's result list: whether the recogniser has
      finished with it, and the transcript of its first alternative. */
  datatype RecognitionResult = RecognitionResult(isFinal: bool, transcript: string)

  /** The text a result contributes: its transcript when final, nothing otherwise. */
  function Contribution(x: RecognitionResult): string {
    if x.isFinal then x.transcript else []
  }

  /** Reference definition: the transcripts of the final results, in order. */
  function Finals(results: seq<RecognitionResult>): string
    decreases |results|
  {
    if results == [] then [] else Contribution(results[0]) + Finals(results[1..])
  }

  /** The final text of an event: the final results from `resultIndex` onward (none
      when the index is past the end). */
  function FinalText(results: seq<RecognitionResult>, resultIndex: nat): string {
    if resultIndex < |results| then Finals(results[resultIndex..]) else []
  }

  /** One more result adds its contribution at the end. */
  lemma {:induction false} FinalsSnoc(results: seq<RecognitionResult>, x: RecognitionResult)
    ensures Finals(results + [x]) == Finals(results) + Contribution(x)
    decreases |results|
  {
    if results == [] {
      assert [] + [x] == [x];
    } else {
      assert (results + [x])[1..] == results[1..] + [x];
      FinalsSnoc(results[1..], x);
    }
  }

  /** The final text is empty exactly when every final result in range has an empty
      transcript. */
  lemma {:induction false} FinalsEmpty(results: seq<RecognitionResult>)
    ensures Finals(results) == [] <==> forall i | 0 <= i < |results| :: results[i].isFinal ==> results[i].transcript == []
    decreases |results|
  {
    if results != [] {
      FinalsEmpty(results[1..]);
      assert forall i | 1 <= i < |results| :: results[i] == results[1..][i - 1];
    }
  }

  /** The merge applied to the input text when the final text is non-empty: both sides
      trimmed, joined by one space unless the previous text trims to nothing. */
  function Merge(prev: string, finalText: string): (r: string)
    ensures finalText == [] ==> r == prev
    ensures finalText != [] ==>
      && var before := Text.Trim(prev);
      && var added := Text.Trim(finalText);
      && |r| == |before| + (if before != [] then 1 else 0) + |added|
      && r[..|before|] == before
      && r[|r| - |added|..] == added
      && (before != [] ==> r[|before|] == ' ')
  {
    if finalText == [] then prev
    else
      var trimmed := Text.Trim(prev);
      var newText := Text.Trim(finalText);
      if trimmed != [] then trimmed + " " + newText else newText
  }

  /** `recognition.onresult`: collects the final text of the event from `resultIndex`
      onward, then merges it into the previous input. */
  method OnResult(prev: string, results: seq<RecognitionResult>, resultIndex: nat) returns (next: string)
    ensures next == Merge(prev, FinalText(results, resultIndex))
  {
    var finalTranscript := "";
    var i := resultIndex;
    while i < |results|
      invariant resultIndex <= i
      invariant resultIndex < |results| ==> i <= |results| && finalTranscript == Finals(results[resultIndex..i])
      invariant resultIndex >= |results| ==> finalTranscript == []
      decreases |results| - i
    {
      if results[i].isFinal {
        finalTranscript := finalTranscript + results[i].transcript;
      }
      assert results[resultIndex..i + 1] == results[resultIndex..i] + [results[i]];
      FinalsSnoc(results[resultIndex..i], results[i]);
      i := i + 1;
    }
    if resultIndex < |results| {
      assert results[resultIndex..i] == results[resultIndex..];
    }
    next := Merge(prev, finalTranscript);
  }

  /** When the final text holds a word, the merged input neither starts nor ends with
      whitespace: it is its own trim. */
  lemma MergeIsTrimmed(prev: string, finalText: string)
    requires !Text.AllSpace(finalText)
    ensures Text.Trim(Merge(prev, finalText)) == Merge(prev, finalText)
  {
    Text.TrimEmptyIffAllSpace(finalText);
    var r := Merge(prev, finalText);
    var before := Text.Trim(prev);
    var added := Text.Trim(finalText);
    assert r[|r| - 1] == added[|added| - 1];
    if before != [] {
      assert r[0] == before[0];
    }
    Text.TrimOfTrimmed(r);
  }

  /** A final text of whitespace only still goes through the merge: the previous text
      is trimmed and, when non-empty, gains a trailing space. */
  lemma WhitespaceFinalText(prev: string, finalText: string)
    requires finalText != [] && Text.AllSpace(finalText)
    ensures Text.Trim(prev) != [] ==> Merge(prev, finalText) == Text.Trim(prev) + " "
    ensures Text.Trim(prev) == [] ==> Merge(prev, finalText) == []
  {
    Text.TrimEmptyIffAllSpace(finalText);
  }
}

=== FILE: history.dfy ===
/** The translator's history list: newest first, at most fifty entries, never two
    entries with the same input text, translation and target language. */
module History {

  datatype SentimentLabel = Positive | Negative | Neutral

  datatype SentimentResult = SentimentResult(sentiment: SentimentLabel, explanation: string)

  /** One saved translation. `id` and `timestamp` come from the clock and a random
      number at the call site; here they are parameters. */
  datatype HistoryItem = HistoryItem(
    id: string,
    inputText: string,
    translatedText: string,
    sentiment: SentimentResult,
    targetLanguage: string,
    targetLanguageName: string,
    timestamp: int)

  /** A history item before it is stamped with an id and a timestamp. */
  datatype Draft = Draft(
    inputText: string,
    translatedText: string,
    sentiment: SentimentResult,
    targetLanguage: string,
    targetLanguageName: string)

  /** What two entries must not share. */
  datatype Key = Key(inputText: string, translatedText: string, targetLanguage: string)

  const MaxEntries := 50

  function KeyOf(h: HistoryItem): Key {
    Key(h.inputText, h.translatedText, h.targetLanguage)
  }

  function DraftKey(d: Draft): Key {
    Key(d.inputText, d.translatedText, d.targetLanguage)
  }

  function Stamp(d: Draft, id: string, timestamp: int): (r: HistoryItem)
    ensures KeyOf(r) == DraftKey(d) && r.id == id && r.timestamp == timestamp
    ensures r.sentiment == d.sentiment && r.targetLanguageName == d.targetLanguageName
  {
    HistoryItem(id, d.inputText, d.translatedText, d.sentiment, d.targetLanguage, d.targetLanguageName, timestamp)
  }

  predicate HasKey(history: seq<HistoryItem>, k: Key) {
    exists i | 0 <= i < |history| :: KeyOf(history[i]) == k
  }

  predicate KeysUnique(history: seq<HistoryItem>) {
    forall i, j | 0 <= i < j < |history| :: KeyOf(history[i]) != KeyOf(history[j])
  }

  /** The invariant the three operations keep. */
  predicate WellFormed(history: seq<HistoryItem>) {
    KeysUnique(history) && |history| <= MaxEntries
  }

  /** `addToHistory`: an entry whose key is already present leaves the history as it
      is; otherwise the stamped entry goes first, the earlier entries follow in their
      order, and the list is cut back to fifty. */
  function Add(prev: seq<HistoryItem>, d: Draft, id: string, timestamp: int): (r: seq<HistoryItem>)
    ensures HasKey(prev, DraftKey(d)) ==> r == prev
    ensures !HasKey(prev, DraftKey(d)) ==>
      && |r| == (if |prev| + 1 < MaxEntries then |prev| + 1 else MaxEntries)
      && r[0] == Stamp(d, id, timestamp)
      && (forall i | 1 <= i < |r| :: r[i] == prev[i - 1])
    ensures HasKey(r, DraftKey(d))
    ensures KeysUnique(prev) ==> KeysUnique(r)
    ensures |prev| <= MaxEntries ==> |r| <= MaxEntries
  {
    if HasKey(prev, DraftKey(d)) then
      prev
    else
      var item := Stamp(d, id, timestamp);
      var grown := [item] + prev;
      var r := grown[..if |grown| < MaxEntries then |grown| else MaxEntries];
      assert KeyOf(r[0]) == DraftKey(d);
      assert forall i | 1 <= i < |r| :: r[i] == prev[i - 1];
      r
  }

  /** `deleteHistoryItem`: removes exactly the entries with that id, every copy of
      them, and nothing else (`DeleteKeepsOrder` adds that the rest keep their order). */
  function Delete(prev: seq<HistoryItem>, id: string): (r: seq<HistoryItem>)
    ensures forall h :: multiset(r)[h] == if h.id == id then 0 else multiset(prev)[h]
    decreases |prev|
  {
    if prev == [] then []
    else
      assert prev == [prev[0]] + prev[1..];
      if prev[0].id == id then Delete(prev[1..], id) else [prev[0]] + Delete(prev[1..], id)
  }

  /** What survives a deletion is exactly the entries with another id. */
  lemma DeleteMembers(prev: seq<HistoryItem>, id: string)
    ensures forall h :: h in Delete(prev, id) <==> h in prev && h.id != id
  {
    var r := Delete(prev, id);
    forall h
      ensures h in r <==> h in prev && h.id != id
    {
      assert h in r <==> multiset(r)[h] > 0;
      assert h in prev <==> multiset(prev)[h] > 0;
    }
  }

  /** The entries that survive a deletion keep their relative order. */
  lemma {:induction false} DeleteKeepsOrder(prev: seq<HistoryItem>, id: string)
    ensures IsSubsequence(Delete(prev, id), prev)
    decreases |prev|
  {
    if prev != [] {
      DeleteKeepsOrder(prev[1..], id);
      var rest := Delete(prev[1..], id);
      if prev[0].id != id {
        assert ([prev[0]] + rest)[1..] == rest;
      } else {
        SubsequenceSkip(rest, prev);
      }
    }
  }

  /** Skipping the head of `b` keeps `a` a subsequence of it. */
  lemma {:induction false} SubsequenceSkip<T>(a: seq<T>, b: seq<T>)
    requires b != [] && IsSubsequence(a, b[1..])
    ensures IsSubsequence(a, b)
    decreases |b|, |a|
  {
    if a != [] && a[0] == b[0] {
      if |b| > 1 {
        SubsequenceTail(a, b[1..]);
      }
    }
  }

  /** Dropping the head of a non-empty subsequence keeps a subsequence. */
  lemma {:induction false} SubsequenceTail<T>(a: seq<T>, b: seq<T>)
    requires a != [] && IsSubsequence(a, b)
    ensures IsSubsequence(a[1..], b)
    decreases |b|, |a|
  {
    if a[0] != b[0] {
      SubsequenceTail(a, b[1..]);
      SubsequenceSkip(a[1..], b);
    } else if a[1..] != [] {
      SubsequenceSkip(a[1..], b);
    }
  }

  /** Deleting cannot create a repeated key. */
  lemma {:induction false} DeleteKeepsKeysUnique(prev: seq<HistoryItem>, id: string)
    requires KeysUnique(prev)
    ensures KeysUnique(Delete(prev, id))
    decreases |prev|
  {
    if prev != [] {
      UniqueSplit(prev);
      DeleteKeepsKeysUnique(prev[1..], id);
      if prev[0].id != id {
        var rest := Delete(prev[1..], id);
        DeleteMembers(prev[1..], id);
        UniqueJoin(prev[0], rest);
      }
    }
  }

  /** A list with unique keys: its head's key does not recur and its tail has unique keys. */
  lemma UniqueSplit(h: seq<HistoryItem>)
    requires h != [] && KeysUnique(h)
    ensures KeysUnique(h[1..])
    ensures forall y | y in h[1..] :: KeyOf(y) != KeyOf(h[0])
  {
    forall i, j | 0 <= i < j < |h[1..]|
      ensures KeyOf(h[1..][i]) != KeyOf(h[1..][j])
    {
      assert h[1..][i] == h[i + 1] && h[1..][j] == h[j + 1];
    }
    forall y | y in h[1..]
      ensures KeyOf(y) != KeyOf(h[0])
    {
      var k :| 0 <= k < |h[1..]| && h[1..][k] == y;
      assert h[k + 1] == y;
    }
  }

  /** An entry whose key is not in a list with unique keys can go in front of it. */
  lemma UniqueJoin(x: HistoryItem, rest: seq<HistoryItem>)
    requires KeysUnique(rest)
    requires forall y | y in rest :: KeyOf(y) != KeyOf(x)
    ensures KeysUnique([x] + rest)
  {
    var r := [x] + rest;
    forall i, j | 0 <= i < j < |r|
      ensures KeyOf(r[i]) != KeyOf(r[j])
    {
      assert r[j] == rest[j - 1];
      if i > 0 { assert r[i] == rest[i - 1]; }
    }
  }

  /** `clearHistory`. */
  function Clear(): (r: seq<HistoryItem>)
    ensures |r| == 0
  {
    []
  }

  /** `a` is `b` with some elements left out and the rest in their order. */
  predicate IsSubsequence<T(==)>(a: seq<T>, b: seq<T>)
    decreases |b|
  {
    if a == [] then true
    else if b == [] then false
    else if a[0] == b[0] then IsSubsequence(a[1..], b[1..])
    else IsSubsequence(a, b[1..])
  }

  /** The user's actions on the history panel and the translator's addition. */
  datatype Op =
    | Added(draft: Draft, id: string, timestamp: int)
    | Deleted(id: string)
    | Cleared

  function Apply(history: seq<HistoryItem>, op: Op): seq<HistoryItem> {
    match op
    case Added(d, id, timestamp) => Add(history, d, id, timestamp)
    case Deleted(id) => Delete(history, id)
    case Cleared => Clear()
  }

  function Replay(history: seq<HistoryItem>, ops: seq<Op>): seq<HistoryItem>
    decreases |ops|
  {
    if ops == [] then history else Replay(Apply(history, ops[0]), ops[1..])
  }

  /** Starting from a well-formed history, any sequence of additions, deletions and
      clears keeps at most fifty entries and no repeated key. */
  lemma {:induction false} ReplayKeepsWellFormed(history: seq<HistoryItem>, ops: seq<Op>)
    requires WellFormed(history)
    ensures WellFormed(Replay(history, ops))
    decreases |ops|
  {
    if ops != [] {
      var next := Apply(history, ops[0]);
      if ops[0].Deleted? {
        DeleteShrinks(history, ops[0].id);
        DeleteKeepsKeysUnique(history, ops[0].id);
      }
      ReplayKeepsWellFormed(next, ops[1..]);
    }
  }

  /** Deleting never makes the history longer. */
  lemma {:induction false} DeleteShrinks(prev: seq<HistoryItem>, id: string)
    ensures |Delete(prev, id)| <= |prev|
    decreases |prev|
  {
    if prev != [] {
      DeleteShrinks(prev[1..], id);
    }
  }

  /** Adding the same translation twice is adding it once, whatever the second id and
      timestamp. */
  lemma AddTwice(prev: seq<HistoryItem>, d: Draft, id1: string, t1: int, id2: string, t2: int)
    ensures Add(Add(prev, d, id1, t1), d, id2, t2) == Add(prev, d, id1, t1)
  {
  }
}

=== FILE: text.dfy ===
/** The string operations the two views rely on: ECMAScript's `String.prototype.trim`,
    the truthiness test "is this string empty", and `split('-')[0]`.
    Strings are sequences of Unicode scalar values; no normalisation is modelled. */
module Text {

  /** ECMAScript WhiteSpace and LineTerminator code points, the characters `trim` removes:
      TAB, LF, VT, FF, CR, SPACE, NBSP, the Zs category, LS, PS and the BOM. */
  predicate IsSpace(c: char) {
    || c == '\t' || c == '\n' || c == '\U{000B}' || c == '\U{000C}' || c == '\r'
    || c == ' ' || c == '\U{00A0}' || c == '\U{1680}'
    || ('\U{2000}' <= c <= '\U{200A}')
    || c == '\U{2028}' || c == '\U{2029}' || c == '\U{202F}' || c == '\U{205F}'
    || c == '\U{3000}' || c == '\U{FEFF}'
  }

  /** Every character of `s` is whitespace (vacuously true of the empty string). */
  predicate AllSpace(s: string) {
    forall i | 0 <= i < |s| :: IsSpace(s[i])
  }

  /** `s` neither starts nor ends with whitespace. */
  predicate Trimmed(s: string) {
    s == [] || (!IsSpace(s[0]) && !IsSpace(s[|s| - 1]))
  }

  /** Drops leading whitespace. */
  function TrimStart(s: string): string
    decreases |s|
  {
    if |s| > 0 && IsSpace(s[0]) then TrimStart(s[1..]) else s
  }

  /** The result of `TrimStart` is a suffix of `s` that does not start with whitespace. */
  lemma {:induction false} TrimStartShape(s: string)
    ensures |TrimStart(s)| <= |s| && TrimStart(s) == s[|s| - |TrimStart(s)|..]
    ensures TrimStart(s) == [] || !IsSpace(TrimStart(s)[0])
    decreases |s|
  {
    if |s| > 0 && IsSpace(s[0]) {
      TrimStartShape(s[1..]);
    }
  }

  /** Only whitespace was dropped from the front. */
  lemma {:induction false} TrimStartDropsSpace(s: string)
    ensures |TrimStart(s)| <= |s|
    ensures AllSpace(s[..|s| - |TrimStart(s)|])
    decreases |s|
  {
    TrimStartShape(s);
    if |s| > 0 && IsSpace(s[0]) {
      var r := TrimStart(s[1..]);
      TrimStartDropsSpace(s[1..]);
      var n := |s| - |r|;
      forall k | 0 <= k < n
        ensures IsSpace(s[..n][k])
      {
        if k > 0 {
          assert s[..n][k] == s[1..][..n - 1][k - 1];
        }
      }
    }
  }

  /** Drops trailing whitespace. */
  function TrimEnd(s: string): string
    decreases |s|
  {
    if |s| > 0 && IsSpace(s[|s| - 1]) then TrimEnd(s[..|s| - 1]) else s
  }

  /** The result of `TrimEnd` is a prefix of `s` that does not end with whitespace. */
  lemma {:induction false} TrimEndShape(s: string)
    ensures |TrimEnd(s)| <= |s| && TrimEnd(s) == s[..|TrimEnd(s)|]
    ensures TrimEnd(s) == [] || !IsSpace(TrimEnd(s)[|TrimEnd(s)| - 1])
    decreases |s|
  {
    if |s| > 0 && IsSpace(s[|s| - 1]) {
      TrimEndShape(s[..|s| - 1]);
    }
  }

  /** Only whitespace was dropped from the back. */
  lemma {:induction false} TrimEndDropsSpace(s: string)
    ensures |TrimEnd(s)| <= |s|
    ensures AllSpace(s[|TrimEnd(s)|..])
    decreases |s|
  {
    TrimEndShape(s);
    if |s| > 0 && IsSpace(s[|s| - 1]) {
      var r := TrimEnd(s[..|s| - 1]);
      TrimEndDropsSpace(s[..|s| - 1]);
      forall k | 0 <= k < |s| - |r|
        ensures IsSpace(s[|r|..][k])
      {
        if k < |s| - 1 - |r| {
          assert s[|r|..][k] == s[..|s| - 1][|r|..][k];
        }
      }
    }
  }

  /** `r` is the slice `s[i..j]`, everything around it is whitespace, and it does not
      itself start or end with whitespace. */
  predicate TrimAt(s: string, r: string, i: nat, j: nat) {
    && i <= j <= |s|
    && r == s[i..j]
    && AllSpace(s[..i])
    && AllSpace(s[j..])
    && Trimmed(r)
  }

  /** `r` is what trimming `s` must produce: some slice of `s` meets `TrimAt`. */
  ghost predicate IsTrimOf(s: string, r: string) {
    exists i: nat, j: nat :: TrimAt(s, r, i, j)
  }

  /** `String.prototype.trim`: never longer than `s` and neither starting nor ending
      with whitespace; `TrimIsTrimOf` and `TrimOfIsUnique` pin it down exactly. */
  function Trim(s: string): (r: string)
    ensures |r| <= |s|
    ensures Trimmed(r)
  {
    TrimStartShape(s);
    TrimEndShape(TrimStart(s));
    TrimEnd(TrimStart(s))
  }

  /** `Trim(s)` meets the characterisation. */
  lemma TrimIsTrimOf(s: string)
    ensures IsTrimOf(s, Trim(s))
  {
    var t := TrimStart(s);
    var r := TrimEnd(t);
    var i := |s| - |t|;
    TrimStartShape(s);
    TrimEndShape(t);
    TrimStartDropsSpace(s);
    TrimEndDropsSpace(t);
    assert s[i..i + |r|] == r;
    assert s[i + |r|..] == t[|r|..];
    assert TrimAt(s, r, i, i + |r|);
  }

  /** The characterisation determines the trim: any `r` that meets `IsTrimOf(s, r)` is
      `Trim(s)`, so `Trim` and `IsTrimOf` are two definitions of the same thing. */
  lemma TrimOfIsUnique(s: string, r: string)
    requires IsTrimOf(s, r)
    ensures r == Trim(s)
  {
    var i: nat, j: nat :| TrimAt(s, r, i, j);
    var t := Trim(s);
    TrimIsTrimOf(s);
    var i': nat, j': nat :| TrimAt(s, t, i', j');
    SlicesAgree(s, r, i, j, t, i', j');
  }

  /** Two slices that both meet `TrimAt` are the same string. */
  lemma SlicesAgree(s: string, r: string, i: nat, j: nat, t: string, i': nat, j': nat)
    requires TrimAt(s, r, i, j) && TrimAt(s, t, i', j')
    ensures r == t
  {
    if r == [] {
      NoNonSpaceOutside(s, i, j);
      if t != [] {
        assert false;
      }
    } else if t == [] {
      NoNonSpaceOutside(s, i', j');
      assert false;
    } else {
      // both start at the first non-space character and end after the last one
      assert s[i] == r[0] && s[i'] == t[0];
      SameStart(s, i, i');
      assert s[j - 1] == r[|r| - 1] && s[j' - 1] == t[|t| - 1];
      SameEnd(s, j, j');
    }
  }

  /** Only one position can be the first non-space character. */
  lemma SameStart(s: string, i: nat, k: nat)
    requires i < |s| && k < |s|
    requires AllSpace(s[..i]) && AllSpace(s[..k])
    requires !IsSpace(s[i]) && !IsSpace(s[k])
    ensures i == k
  {
  }

  /** Only one position can follow the last non-space character. */
  lemma SameEnd(s: string, j: nat, k: nat)
    requires 0 < j <= |s| && 0 < k <= |s|
    requires AllSpace(s[j..]) && AllSpace(s[k..])
    requires !IsSpace(s[j - 1]) && !IsSpace(s[k - 1])
    ensures j == k
  {
  }

  /** With an empty slice in between, whitespace before `i` and after `j` covers `s`. */
  lemma NoNonSpaceOutside(s: string, i: nat, j: nat)
    requires i == j <= |s|
    requires AllSpace(s[..i]) && AllSpace(s[j..])
    ensures AllSpace(s)
  {
    forall k | 0 <= k < |s|
      ensures IsSpace(s[k])
    {
      if k < i { assert s[..i][k] == s[k]; } else { assert s[j..][k - j] == s[k]; }
    }
  }

  /** JavaScript's `s.trim()` is falsy exactly when `s` is all whitespace. */
  lemma {:induction false} TrimEmptyIffAllSpace(s: string)
    ensures Trim(s) == [] <==> AllSpace(s)
  {
    var t := Trim(s);
    TrimIsTrimOf(s);
    var i: nat, j: nat :| TrimAt(s, t, i, j);
    if t == [] {
      NoNonSpaceOutside(s, i, j);
    } else {
      assert s[i] == t[0];
    }
  }

  /** Trimming twice is trimming once. */
  lemma TrimIdempotent(s: string)
    ensures Trim(Trim(s)) == Trim(s)
  {
    var t := Trim(s);
    assert t[..0] == [] && t[|t|..] == [] && t[0..|t|] == t;
    assert TrimAt(t, t, 0, |t|);
    TrimOfIsUnique(t, t);
  }

  /** A string that is already trimmed is its own trim. */
  lemma TrimOfTrimmed(s: string)
    requires Trimmed(s)
    ensures Trim(s) == s
  {
    assert s[..0] == [] && s[|s|..] == [] && s[0..|s|] == s;
    assert TrimAt(s, s, 0, |s|);
    TrimOfIsUnique(s, s);
  }

  /** The prefix of a language tag before its first `-`: JavaScript's `tag.split('-')[0]`. */
  function PrefixBeforeDash(tag: string): (r: string)
    ensures |r| <= |tag| && r == tag[..|r|]
    ensures forall i | 0 <= i < |r| :: r[i] != '-'
    ensures |r| < |tag| ==> tag[|r|] == '-'
  {
    if tag == [] || tag[0] == '-' then [] else [tag[0]] + PrefixBeforeDash(tag[1..])
  }
}

=== FILE: translator.dfy ===
/** The translator view's remaining state logic: the default dictation language, the
    lookup of a language's display name, and what a settled translation/sentiment
    request pair does to the view, including when it reaches the history. */
module Translator {
  import opened Wrappers
  import Text
  import History

  /** An entry of the language list: a code such as `es` and its display name. */
  datatype Language = Language(code: string, name: string)

  const FallbackLanguage := "en"
  const TranslateFailedMessage := "Failed to translate text. Please try again."

  predicate Lists(languages: seq<Language>, code: string) {
    exists i | 0 <= i < |languages| :: languages[i].code == code
  }

  /** The initial dictation language: the browser tag's part before its first `-` when
      the language list has that code, and `en` otherwise, including when the browser
      reports no language or an empty one. */
  function DefaultInputLanguage(browserLanguage: Option<string>, languages: seq<Language>): (r: string)
    ensures browserLanguage.None? || browserLanguage == Some([]) ==> r == FallbackLanguage
    ensures r == FallbackLanguage || Lists(languages, r)
    ensures browserLanguage.Some? && browserLanguage.value != [] ==>
      var prefix := Text.PrefixBeforeDash(browserLanguage.value);
      r == if Lists(languages, prefix) then prefix else FallbackLanguage
  {
    match browserLanguage
    case Some(tag) =>
      if tag != [] then
        var browserLang := Text.PrefixBeforeDash(tag);
        if Lists(languages, browserLang) then browserLang else FallbackLanguage
      else FallbackLanguage
    case None => FallbackLanguage
  }

  /** The display name of the first language with `code`, or the empty string when the
      list has none. */
  function LanguageName(languages: seq<Language>, code: string): (r: string)
    ensures !Lists(languages, code) ==> r == []
    ensures forall i | 0 <= i < |languages| && languages[i].code == code ::
      (forall j | 0 <= j < i :: languages[j].code != code) ==> r == languages[i].name
    decreases |languages|
  {
    if languages == [] then []
    else if languages[0].code == code then languages[0].name
    else
      var r := LanguageName(languages[1..], code);
      assert forall i | 1 <= i < |languages| :: languages[i] == languages[1..][i - 1];
      r
  }

  /** The part of the view a translation request changes. */
  datatype View = View(
    translatedText: string,
    sentiment: Option<History.SentimentResult>,
    error: string,
    history: seq<History.HistoryItem>)

  /** The debounced-input effect once both requests have settled. A whitespace-only
      input clears the translation, the sentiment and the error and asks nothing.
      Otherwise `translation` and `sentiment` are the two outcomes (`None` when the
      request rejected): each success is shown; a failed translation sets the error
      and adds nothing; a successful, non-empty translation with a sentiment is added
      to the history, stamped with `id` and `timestamp`. */
  function OnDebouncedInput(
    v: View, input: string, target: string, languages: seq<Language>,
    translation: Option<string>, sentiment: Option<History.SentimentResult>,
    id: string, timestamp: int): (r: View)
    ensures Text.AllSpace(input) ==> r == View([], None, [], v.history)
    ensures !Text.AllSpace(input) ==>
      && (translation.Some? ==> r.translatedText == translation.value && r.error == [])
      && (translation.None? ==> r.translatedText == v.translatedText && r.error == TranslateFailedMessage)
      && r.sentiment == (if sentiment.Some? then sentiment else v.sentiment)
    ensures r.history != v.history ==>
      && !Text.AllSpace(input) && translation.Some? && translation.value != [] && sentiment.Some?
    ensures !Text.AllSpace(input) && translation.Some? && translation.value != [] && sentiment.Some? ==>
      r.history == History.Add(
        v.history,
        History.Draft(input, translation.value, sentiment.value, target, LanguageName(languages, target)),
        id, timestamp)
  {
    Text.TrimEmptyIffAllSpace(input);
    if Text.Trim(input) == [] then
      v.(translatedText := [], sentiment := None, error := [])
    else
      var shown := v.(
        error := [],
        translatedText := if translation.Some? then translation.value else v.translatedText,
        sentiment := if sentiment.Some? then sentiment else v.sentiment);
      match translation
      case None => shown.(error := TranslateFailedMessage)
      case Some(text) =>
        if text != [] && sentiment.Some? then
          var targetLanguageName := LanguageName(languages, target);
          shown.(history := History.Add(
            v.history, History.Draft(input, text, sentiment.value, target, targetLanguageName), id, timestamp))
        else
          shown
  }

  /** Whatever the outcomes, a request keeps the history well formed. */
  lemma OnDebouncedInputKeepsHistory(
    v: View, input: string, target: string, languages: seq<Language>,
    translation: Option<string>, sentiment: Option<History.SentimentResult>,
    id: string, timestamp: int)
    requires History.WellFormed(v.history)
    ensures History.WellFormed(OnDebouncedInput(v, input, target, languages, translation, sentiment, id, timestamp).history)
  {
  }
}

=== FILE: wrappers.dfy ===
/** Optional values: the model's stand-in for JavaScript's `undefined`/`null`
    and for a promise that settled without a value. */
module Wrappers {

  datatype Option<+T> = None | Some(value: T)
}
